=== FILE: README.md ===
# MMM-AnimatedWeatherBackgrounds — a Dafny model of the decision engine

This is a model of MMM-AnimatedWeatherBackgrounds, a MagicMirror module that plays a
looping background video picked from the current weather. The model covers the part
that decides what to show and leaves out the part that draws it:

- **Classifier** (`classifier.dfy`, `text.dfy`). `normalizeWeather` lower-cases a
  condition string. It then runs its pattern tests in a fixed priority order and
  returns a scene key and a night hint. Each regular expression becomes a
  disjunction of substring tests.
- **Day and night** (`daynight.dfy`). `parseTimestamp` normalises a sunrise or
  sunset value. `resolveNightFlag` applies the explicit flag first, then the
  sunrise–sunset window, and otherwise answers day. `Date.now()` is the parameter
  `now`.
- **Media** (`media.dfy`). `isVideoUrl` is stated twice: as the language its
  regular expression accepts, and as an executable scanner proved equal to it. The
  file also holds `resolveSpriteUrl`, the sprite table with its `default` entry,
  `normalizeSpriteConfig` and `lookupSprite` with its two fallbacks.
- **Scene state machine** (`scenes.dfy`). `updateSprite` rejects a request, treats
  it as a no-op, or replaces the five shown fields at once. The file also holds
  `applyScene` and the state `start` seeds.
- **Handlers** (`handlers.dfy`). The manual override gate, the weather, ambient,
  set and clear notifications, and `notificationReceived`. Each handler is a pure
  function from state, configuration, host functions, clock reading and payload to
  a `Transition`. A transition is the next state plus what the step asks of the
  video element: `Idle`, `MissingMedia`, `Resume` or `Reload`.
- **Session** (`session.dfy`). A run is a sequence of timed notifications. The
  invariant `Valid` holds in every state reachable from `start`.

JavaScript truthiness is kept where the code relies on it (`jsvalues.dfy`):

- null, undefined and "" are falsy strings;
- a playback rate of 0 stands for every falsy rate;
- `sunrise && sunset` treats 0 and NaN as unknown.

The host functions `Date.parse` and `this.file` are uninterpreted function fields
of `Handlers.Env`.

Two behaviours of the code are easy to misread, and the model states them as
the code has them:

- CLEAR re-applies the scene and night flag on show, which may be the override's,
  not the last classified ones (`Handlers.SetThenClearKeepsOverrideScene`).
- On the weather-type path the classifier's night hint is always a boolean, so it
  always decides night and the sun times are never read
  (`Handlers.WeatherTypeIgnoresSunTimes`). The ambient path does not use the hint
  at all.

## Model

| member | source | states |
|---|---|---|
| JsValues.EffectiveRate | MMM-AnimatedWeatherBackgrounds.js:261 | the rate settled on is never falsy: the requested rate if set, else the configured one, else 1 |
| JsValues.OrElse | MMM-AnimatedWeatherBackgrounds.js:136-141 | `a \|\| b` on strings is truthy iff one side is, and picks the first truthy side |
| Text.Lower | MMM-AnimatedWeatherBackgrounds.js:334 | lower-casing keeps the length, leaves no upper-case ASCII letter, and agrees with the input letter by letter up to case |
| Text.Contains | MMM-AnimatedWeatherBackgrounds.js:335 | the substring test holds iff the pattern occurs at some offset |
| Classifier.NormalizeWeather | MMM-AnimatedWeatherBackgrounds.js:333-363 | the scene is one of the nine classifier scenes; null and "" give a clear day; a night hint needs a non-empty input |
| Classifier.ScenePriority | MMM-AnimatedWeatherBackgrounds.js:345-360 | the scene is that of the first rule in the order thunderstorm, snow, sleet, rain, fog, wind, cloud whose words occur, "clear" when none does; partly_cloudy iff the cloud rule is first to match and the partly pattern matches too |
| Classifier.EarlierRuleWins | MMM-AnimatedWeatherBackgrounds.js:345-360 | a word of rule k decides the scene whatever later rules also match, once no earlier rule matches |
| Classifier.NightHintIsCaseInsensitiveNight | MMM-AnimatedWeatherBackgrounds.js:334-335 | the hint is set iff the lower-cased input contains "night", and classification ignores letter case |
| Classifier.ThundersnowIsThunderstorm | MMM-AnimatedWeatherBackgrounds.js:336-347 | "thundersnow" matches both the thunder and the snow pattern and classifies as thunderstorm |
| Classifier.EmptyIsClearDay | MMM-AnimatedWeatherBackgrounds.js:334-345 | null and "" classify as "clear" without a night hint |
| Classifier.SnowNightExample | MMM-AnimatedWeatherBackgrounds.js:333-349 | "Snow Night" classifies as snow with the night hint set |
| DayNight.ParseTimestamp | MMM-AnimatedWeatherBackgrounds.js:377-390 | null, undefined and booleans give null; numbers pass unchanged; a Date gives its time; a string gives null iff it does not parse; another object gives its numeric non-NaN `valueOf`, else null; only a NaN number or invalid Date yields NaN |
| DayNight.ParseTimestampIsIdempotent | MMM-AnimatedWeatherBackgrounds.js:377-390 | normalising a normalised timestamp changes nothing |
| DayNight.ResolveNightFlag | MMM-AnimatedWeatherBackgrounds.js:365-375 | a boolean flag is returned as is; with both sun times truthy it is night iff now lies outside [sunrise, sunset]; otherwise day |
| DayNight.DayNeedsAReason | MMM-AnimatedWeatherBackgrounds.js:365-375 | day is answered only for an explicit false, unknown sun times, or a time inside the window |
| DayNight.ExplicitFlagWins | MMM-AnimatedWeatherBackgrounds.js:366 | with a flag, neither the sun times nor the clock matter |
| DayNight.InvertedWindowIsAlwaysNight | MMM-AnimatedWeatherBackgrounds.js:370-372 | a sunset before sunrise makes every instant night: the window does not wrap around midnight |
| DayNight.FalsyTimeMeansDay | MMM-AnimatedWeatherBackgrounds.js:370-374 | a zero or NaN sunrise counts as unknown and gives day |
| DayNight.WindowExamples | MMM-AnimatedWeatherBackgrounds.js:365-375 | sunrise 100 and sunset 200 give night at 50, day at 150, night at 250, and a night flag wins at 150 |
| Media.IsVideoUrl | MMM-AnimatedWeatherBackgrounds.js:404-407 | the test holds iff the path is non-empty and splits into a head ending in a dot and mp4/webm/mov/m4v in any case, followed by nothing or by `?` and a line without terminators |
| Media.ScanSplits | MMM-AnimatedWeatherBackgrounds.js:406 | scanning split points from the right finds one iff some offset up to the start splits the path as the regular expression requires |
| Media.Mp4IsVideo | MMM-AnimatedWeatherBackgrounds.js:406 | any path ending in ".mp4" is a video path |
| Media.QueryAfterExtensionIsVideo | MMM-AnimatedWeatherBackgrounds.js:406 | "a.MP4?v=2" is a video path: the query part and upper case are accepted |
| Media.WithoutQueryOnlyTheEndCounts | MMM-AnimatedWeatherBackgrounds.js:406 | for a path without "?", being a video path is exactly ending in a dot and a video extension |
| Media.ImageIsNotVideo | MMM-AnimatedWeatherBackgrounds.js:404-407 | "a.gif" is not a video path |
| Media.ResolveSpriteUrl | MMM-AnimatedWeatherBackgrounds.js:392-402 | "" gives null and nothing else does; http(s), data: and rooted paths pass unchanged; a modules/ path gets exactly one leading "/"; anything else goes through `file` |
| Media.ResolveIsStable | MMM-AnimatedWeatherBackgrounds.js:392-400 | resolving again a result not produced by `file` returns it unchanged |
| Media.SceneEntry | MMM-AnimatedWeatherBackgrounds.js:221 | a truthy entry for the key is used, otherwise the default entry |
| Media.NormalizeSpriteConfig | MMM-AnimatedWeatherBackgrounds.js:247-252 | a string entry serves day and night with no rate of its own; an object entry is kept; a missing one is empty |
| Media.NormalizeSpriteConfigIsIdempotent | MMM-AnimatedWeatherBackgrounds.js:247-252 | normalising a normalised entry changes nothing |
| Media.PreferredPath | MMM-AnimatedWeatherBackgrounds.js:224-226 | a non-empty requested slot is chosen, otherwise the opposite slot; the result is empty only when both slots are |
| Media.LookupSprite | MMM-AnimatedWeatherBackgrounds.js:219-245 | the type is always video; the url is the scene entry's candidate whenever that is a video, else the default entry's, and null only when neither is a video; the rate is the scene entry's, else the configured one, else 1 |
| Media.MissingSceneUsesDefault | MMM-AnimatedWeatherBackgrounds.js:221 | a key the table lacks looks up exactly like "default" |
| Media.PathEntryServesDayAndNight | MMM-AnimatedWeatherBackgrounds.js:248-249 | a string entry offers the same url for day and night, and shows it in both when it is a video |
| Media.EmptySlotUsesOppositeSlot | MMM-AnimatedWeatherBackgrounds.js:224-226 | an empty requested slot is filled from the opposite slot of the same entry |
| Media.NonVideoFallsBackToDefault | MMM-AnimatedWeatherBackgrounds.js:228-233 | a non-video candidate is replaced by the default entry's video, or by null when that is not a video either |
| Media.RateComesFromSceneEntry | MMM-AnimatedWeatherBackgrounds.js:240-244 | the rate is the scene entry's own, else the configured one, whichever slot or fallback gave the url, and is the same for day and night |
| Media.ShippedTablePaths | MMM-AnimatedWeatherBackgrounds.js:19-33 | every shipped entry has a day and a night "videos/…mp4" path and no rate, and the table has a default entry |
| Media.ShippedPathGoesToFile | MMM-AnimatedWeatherBackgrounds.js:392-401 | a shipped path is handed to `file` |
| Media.ShippedTableAlwaysFindsVideo | MMM-AnimatedWeatherBackgrounds.js:12-34 | with the shipped table and a prefixing `file`, every scene key, known or not, finds a video for day and night, at rate 1 |
| Scenes.NextType | MMM-AnimatedWeatherBackgrounds.js:260 | a given type is kept; without one the type is video iff the url is a video path |
| Scenes.UpdateSprite | MMM-AnimatedWeatherBackgrounds.js:254-292 | no url leaves the state unchanged with a warning; otherwise the shown fields equal the request afterwards; it resumes iff they already did and reloads iff they did not; sun times and override never change |
| Scenes.UpdateIsIdempotent | MMM-AnimatedWeatherBackgrounds.js:263-278 | repeating a request changes nothing and never reloads |
| Scenes.ApplyScene | MMM-AnimatedWeatherBackgrounds.js:214-217 | the step warns iff the lookup finds no url; otherwise the scene, night flag, looked-up url and rate are shown as a video, and it resumes iff exactly that was already on show |
| Scenes.Start | MMM-AnimatedWeatherBackgrounds.js:46-60 | the first state shows the default day video at the default entry's rate, or nothing at `videoPlaybackRate \|\| 1` if the table has none; no sun times, no override |
| Handlers.OverrideSceneKey | MMM-AnimatedWeatherBackgrounds.js:196 | the override's scene if truthy, else "manual"; never empty |
| Handlers.ApplyManualOverride | MMM-AnimatedWeatherBackgrounds.js:192-209 | without an override nothing happens; a url override that resolves to a non-empty url is always put in the state (a non-video url as an image, which the sink hides), with no lookup and no video check, at its own rate, with a type read from its extension; otherwise the override's scene key is applied as a table scene; the night flag is the override's own, else the sun-time rule; with an override the step is never idle, and it resumes iff exactly that was already on show |
| Handlers.HandleManualSet | MMM-AnimatedWeatherBackgrounds.js:181-190 | a payload with neither scene nor url is ignored; otherwise the override is stored, with falsy fields as null and the rate defaulted, and exactly that override is applied |
| Handlers.HandleClear | MMM-AnimatedWeatherBackgrounds.js:115-119 | the override is dropped; if there is a scene, the scene key and night flag on show are looked up again in the table and applied |
| Handlers.HandleWeatherType | MMM-AnimatedWeatherBackgrounds.js:167-179 | a falsy type with no override does nothing; an override is applied instead of the classified scene; otherwise the classified scene is applied with the classifier's night hint as the night flag |
| Handlers.HandleWeatherUpdate | MMM-AnimatedWeatherBackgrounds.js:153-165 | a payload without current weather does nothing; otherwise the sun times are replaced and a truthy type goes down the weather-type path |
| Handlers.AmbientCondition | MMM-AnimatedWeatherBackgrounds.js:136-141 | the first truthy field among condition, conditionCode, icon, weather, else null |
| Handlers.HandleAmbientWeather | MMM-AnimatedWeatherBackgrounds.js:123-151 | the sun times are replaced; an override is applied if there is one; else a truthy condition's classified scene is applied, night from isDaytime or else the sun-time rule on the new sun times |
| Handlers.NotificationReceived | MMM-AnimatedWeatherBackgrounds.js:106-121 | each notification reaches exactly its handler (weather type, weather update, ambient data, SET, CLEAR); CLEAR always drops the override and re-applies the scene and night flag on show when there is a scene; unrelated notifications do nothing; only SET and CLEAR touch the override |
| Handlers.OverrideGatesWeather | MMM-AnimatedWeatherBackgrounds.js:143-147 | while an override is active, weather-type and ambient notifications are exactly an application of the override (the ambient one on the new sun times), so the scene on show is the override's key or the previous one |
| Handlers.WeatherTypeIgnoresSunTimes | MMM-AnimatedWeatherBackgrounds.js:175-178 | without an override, the weather-type path shows the same thing whatever the sun times and clock |
| Handlers.SceneOverrideIgnoresItsRate | MMM-AnimatedWeatherBackgrounds.js:187-208 | a scene override's stored playback rate never affects what is shown: the table entry's rate is used |
| Handlers.SetThenClearKeepsOverrideScene | MMM-AnimatedWeatherBackgrounds.js:115-119 | set with a table scene, then clear: the override's scene stays on show and the clear only resumes |
| Session.UpdatePreservesValid | MMM-AnimatedWeatherBackgrounds.js:254-292 | an update keeps the state invariant |
| Session.ApplyScenePreservesValid | MMM-AnimatedWeatherBackgrounds.js:214-217 | applying a scene keeps the invariant |
| Session.ApplyOverridePreservesValid | MMM-AnimatedWeatherBackgrounds.js:192-209 | applying the override keeps the invariant |
| Session.WeatherTypePreservesValid | MMM-AnimatedWeatherBackgrounds.js:167-179 | the weather-type handler keeps the invariant |
| Session.WeatherUpdatePreservesValid | MMM-AnimatedWeatherBackgrounds.js:153-165 | the weather-update handler keeps the invariant |
| Session.AmbientPreservesValid | MMM-AnimatedWeatherBackgrounds.js:123-151 | the ambient handler keeps the invariant |
| Session.ManualSetPreservesValid | MMM-AnimatedWeatherBackgrounds.js:181-190 | the set handler keeps the invariant, storing only valid overrides |
| Session.ClearPreservesValid | MMM-AnimatedWeatherBackgrounds.js:115-119 | the clear branch keeps the invariant |
| Session.NotificationPreservesValid | MMM-AnimatedWeatherBackgrounds.js:106-121 | every notification keeps the invariant |
| Session.StartIsValid | MMM-AnimatedWeatherBackgrounds.js:46-60 | the initial state satisfies the invariant |
| Session.RunPreservesValid | MMM-AnimatedWeatherBackgrounds.js:106-121 | any sequence of notifications from a valid state ends in a valid state |
| Session.ReachableStatesAreValid | MMM-AnimatedWeatherBackgrounds.js:46-121 | every state reachable from start has scene and url set together and non-empty, a truthy rate, a type that agrees with the url's extension, and a valid override |

## Left out

- The DOM and the video element: `getDom`, `applySprite`, `play()` promises, CSS
  classes and custom properties, `getStyles`. Their effect is summarised as the
  `Effect` of a transition.
- Cosmetic configuration (`position`, `opacity`, `blur`, `vignette`,
  `transitionSpeed`): it takes part in no decision.
- `Log` calls, `suspend` and `resume` (no-ops), and `lastSceneSignature`, which is
  written but never read.
- `overrides/MM.getModules.js`, a console snippet that sends one SET notification.
- Floating point. Playback rates and timestamps are integers, Infinity is not
  modelled, and NaN is modelled only for timestamps. A NaN rate is modelled as the
  falsy rate 0.
- Non-string condition fields. A numeric `conditionCode` would make `toLowerCase`
  throw; the model's payload fields are strings or absent.
- Non-string slot values in a table entry, and keys inherited from `Object.prototype`
  (such as "toString"), which `sprites[sceneKey]` would find.
- Text.Lower: lower-cases ASCII letters only. JavaScript's `toLowerCase` also maps
  non-ASCII letters, and the Kelvin sign becomes "k", so "sprinKle"-style input
  classifies differently. The regular expressions' `/i` flag without `u` never maps
  non-ASCII to ASCII, so `isVideoUrl` and `resolveSpriteUrl` are exact.
- Media.PathEntryServesDayAndNight: the same url for day and night is promised only
  when the entry's path is a video path. Otherwise each slot falls back to its own
  slot of the default entry, which can differ.
- Media.ResolveIsStable: covers only results not produced by `file`, whose
  behaviour is not known.

=== FILE: classifier.dfy ===
/**
 * The weather classifier (`normalizeWeather`): a free-text or coded condition
 * string becomes a scene key and a night hint. Each regular expression of the
 * source is a disjunction of literal substrings; `sunny[-_\s]?overcast` is
 * expanded into its literal forms plus the whitespace-separated family.
 */
module Classifier {
  import opened JsValues
  import opened Text

  const ThunderWords: seq<string> := ["thunder", "storm"]
  const SnowWords: seq<string> := ["snow"]
  const SleetWords: seq<string> := ["sleet", "hail"]
  const RainWords: seq<string> := ["rain", "shower", "drizzle", "sprinkle"]
  const FogWords: seq<string> := ["fog", "haze", "mist"]
  const WindWords: seq<string> := ["wind", "breeze", "tornado", "hurricane"]
  const CloudWords: seq<string> := ["cloud", "overcast"]
  /** The literal alternatives of `partly|sunny[-_\s]?overcast|broken` other than
      the `\s` separators, which `SunnyOvercastWithSpace` covers. */
  const PartlyWords: seq<string> := ["partly", "broken", "sunnyovercast", "sunny-overcast", "sunny_overcast"]

  /** Some word of `words` occurs in `raw`. */
  predicate MatchesAny(raw: string, words: seq<string>) {
    exists w | w in words :: Contains(raw, w)
  }

  /** "sunny", one `\s` character, then "overcast". */
  predicate SunnyOvercastWithSpace(raw: string) {
    exists i | 0 <= i <= |raw| :: OccursAt(raw, "sunny", i) && OccursAt(raw, "overcast", i + 6) && IsJsWhitespace(raw[i + 5])
  }

  predicate IsPartly(raw: string) {
    MatchesAny(raw, PartlyWords) || SunnyOvercastWithSpace(raw)
  }

  datatype Classification = Classification(scene: string, isNightHint: bool)

  /** The scene keys the classifier can produce. */
  const ClassifierScenes: set<string> :=
    {"thunderstorm", "snow", "sleet", "rain", "fog", "wind", "partly_cloudy", "cloudy", "clear"}

  /** `normalizeWeather(type)`: lower-cases the condition (null and undefined read as
      "") and tests the patterns in priority order, the first match deciding. */
  function NormalizeWeather(condition: Option<string>): (c: Classification)
    ensures c.scene in ClassifierScenes
    ensures !Truthy(condition) ==> c == Classification("clear", false)
    ensures c.isNightHint ==> Truthy(condition)
  {
    var raw := RawCondition(condition);
    Classification(SceneFor(raw), Contains(raw, "night"))
  }

  /** `(type || "").toLowerCase()`. */
  function RawCondition(condition: Option<string>): string {
    Lower(if condition.Some? then condition.value else "")
  }

  /** The if/else-if chain of `normalizeWeather` on the lower-cased input. */
  function SceneFor(raw: string): string {
    if MatchesAny(raw, ThunderWords) then "thunderstorm"
    else if MatchesAny(raw, SnowWords) then "snow"
    else if MatchesAny(raw, SleetWords) then "sleet"
    else if MatchesAny(raw, RainWords) then "rain"
    else if MatchesAny(raw, FogWords) then "fog"
    else if MatchesAny(raw, WindWords) then "wind"
    else if MatchesAny(raw, CloudWords) then (if IsPartly(raw) then "partly_cloudy" else "cloudy")
    else "clear"
  }

  /* ---------------------------------------------------------------------------
     An independent statement of the priority order: a table of rules, and
     "the first rule that matches decides".
     --------------------------------------------------------------------------- */

  datatype Rule = Rule(scene: string, words: seq<string>)

  /** The rules in the order they are tried; the cloud rule's scene is refined
      to "partly_cloudy" when the partly pattern also matches. */
  const Rules: seq<Rule> := [
    Rule("thunderstorm", ThunderWords),
    Rule("snow", SnowWords),
    Rule("sleet", SleetWords),
    Rule("rain", RainWords),
    Rule("fog", FogWords),
    Rule("wind", WindWords),
    Rule("cloudy", CloudWords)
  ]

  /** Rule `k` is the first rule whose words occur in `raw`. */
  ghost predicate FirstMatch(raw: string, k: int) {
    && 0 <= k < |Rules|
    && MatchesAny(raw, Rules[k].words)
    && forall j | 0 <= j < k :: !MatchesAny(raw, Rules[j].words)
  }

  /** The scene a rule stands for, given the lower-cased input. */
  function RuleScene(raw: string, k: int): string
    requires 0 <= k < |Rules|
  {
    if Rules[k].scene == "cloudy" && IsPartly(raw) then "partly_cloudy" else Rules[k].scene
  }

  /** The classifier picks the scene of the first matching rule, and "clear" when
      no rule matches; so "partly_cloudy" needs both the cloud and the partly pattern. */
  lemma ScenePriority(condition: Option<string>)
    ensures var raw := RawCondition(condition);
      && (forall k | FirstMatch(raw, k) :: NormalizeWeather(condition).scene == RuleScene(raw, k))
      && ((forall k | 0 <= k < |Rules| :: !MatchesAny(raw, Rules[k].words)) ==> NormalizeWeather(condition).scene == "clear")
      && (NormalizeWeather(condition).scene == "partly_cloudy" <==> FirstMatch(raw, 6) && IsPartly(raw))
  {
    var raw := RawCondition(condition);
    RulesUnfold();
    forall k | FirstMatch(raw, k)
      ensures SceneFor(raw) == RuleScene(raw, k)
    {
      FirstMatchDecides(raw, k);
    }
    if SceneFor(raw) == "partly_cloudy" {
      assert FirstMatch(raw, 6);
    }
  }

  lemma RulesUnfold()
    ensures |Rules| == 7
    ensures Rules[0] == Rule("thunderstorm", ThunderWords) && Rules[1] == Rule("snow", SnowWords)
    ensures Rules[2] == Rule("sleet", SleetWords) && Rules[3] == Rule("rain", RainWords)
    ensures Rules[4] == Rule("fog", FogWords) && Rules[5] == Rule("wind", WindWords)
    ensures Rules[6] == Rule("cloudy", CloudWords)
  {
  }

  lemma FirstMatchDecides(raw: string, k: int)
    requires FirstMatch(raw, k)
    ensures SceneFor(raw) == RuleScene(raw, k)
  {
    RulesUnfold();
    if k >= 1 { assert !MatchesAny(raw, Rules[0].words); }
    if k >= 2 { assert !MatchesAny(raw, Rules[1].words); }
    if k >= 3 { assert !MatchesAny(raw, Rules[2].words); }
    if k >= 4 { assert !MatchesAny(raw, Rules[3].words); }
    if k >= 5 { assert !MatchesAny(raw, Rules[4].words); }
    if k >= 6 { assert !MatchesAny(raw, Rules[5].words); }
  }

  /** The night hint is exactly "the input contains `night`, in any letter case". */
  lemma NightHintIsCaseInsensitiveNight(condition: string)
    ensures NormalizeWeather(Some(condition)).isNightHint <==> Contains(Lower(condition), "night")
    ensures NormalizeWeather(Some(condition)) == NormalizeWeather(Some(Lower(condition)))
  {
    LowerIsIdempotent(condition);
  }

  /** A word with a letter that `s` lacks does not occur in `s`. */
  lemma MissingLetterRulesOut(s: string, word: string, c: char)
    requires c in word
    requires forall i | 0 <= i < |s| :: s[i] != c
    ensures !Contains(s, word)
  {
  }

  /** The first rule that matches decides, whatever later rules also match. */
  lemma EarlierRuleWins(raw: string, k: int, word: string)
    requires 0 <= k < |Rules| && word in Rules[k].words && Contains(raw, word)
    requires forall j | 0 <= j < k :: !MatchesAny(raw, Rules[j].words)
    ensures SceneFor(raw) == RuleScene(raw, k)
  {
    FirstMatchDecides(raw, k);
  }

  /** "thundersnow" matches both the thunderstorm and the snow pattern; the
      earlier one wins. */
  lemma ThundersnowIsThunderstorm()
    ensures MatchesAny(RawCondition(Some("thundersnow")), ThunderWords)
    ensures MatchesAny(RawCondition(Some("thundersnow")), SnowWords)
    ensures NormalizeWeather(Some("thundersnow")).scene == "thunderstorm"
  {
    var raw := RawCondition(Some("thundersnow"));
    assert raw == "thundersnow";
    ThundersnowRaw(raw);
  }

  lemma ThundersnowRaw(raw: string)
    requires raw == "thundersnow"
    ensures MatchesAny(raw, ThunderWords) && MatchesAny(raw, SnowWords)
    ensures SceneFor(raw) == "thunderstorm"
  {
    assert OccursAt(raw, "thunder", 0);
    assert OccursAt(raw, "snow", 7);
    assert Contains(raw, "snow");
    RulesUnfold();
    EarlierRuleWins(raw, 0, "thunder");
  }

  /** Null and empty conditions classify as a clear day. */
  lemma EmptyIsClearDay()
    ensures NormalizeWeather(None) == Classification("clear", false)
    ensures NormalizeWeather(Some("")) == Classification("clear", false)
  {
  }

  /** Mixed-case input: "Snow Night" is snow, with the night hint set. */
  lemma SnowNightExample()
    ensures NormalizeWeather(Some("Snow Night")) == Classification("snow", true)
  {
    var raw := RawCondition(Some("Snow Night"));
    assert raw == "snow night";
    SnowNightRaw(raw);
  }

  lemma SnowNightRaw(raw: string)
    requires raw == "snow night"
    ensures SceneFor(raw) == "snow" && Contains(raw, "night")
  {
    SnowNightWords(raw);
    RulesUnfold();
    EarlierRuleWins(raw, 1, "snow");
  }

  lemma SnowNightWords(raw: string)
    requires raw == "snow night"
    ensures Contains(raw, "snow") && Contains(raw, "night") && !MatchesAny(raw, ThunderWords)
  {
    assert OccursAt(raw, "snow", 0);
    assert OccursAt(raw, "night", 5);
    assert forall i | 0 <= i < |raw| :: raw[i] != 'u' && raw[i] != 'r';
    MissingLetterRulesOut(raw, "thunder", 'u');
    MissingLetterRulesOut(raw, "storm", 'r');
  }
}

=== FILE: daynight.dfy ===
/**
 * Sun times and the day/night resolver: `parseTimestamp` normalises the many
 * shapes a sunrise or sunset value can take, and `resolveNightFlag` decides
 * night from an explicit flag, else from the sunrise-sunset window, else day.
 */
module DayNight {
  import opened JsValues

  /** The last sunrise and sunset received; replaced wholesale by each update. */
  datatype SunTimes = SunTimes(sunrise: Option<JsNumber>, sunset: Option<JsNumber>)

  const UnknownSunTimes := SunTimes(None, None)

  /** `parseTimestamp(value)`. `dateParse` stands for `Date.parse`, with None for NaN. */
  function ParseTimestamp(dateParse: string -> Option<int>, v: JsValue): (r: Option<JsNumber>)
    ensures (v == Undefined || v == Null) ==> r == None
    ensures v.Number? ==> r == Some(v.n)
    ensures v.Str? ==> (r == None <==> dateParse(v.s).None?)
    ensures v.Str? && dateParse(v.s).Some? ==> r == Some(Finite(dateParse(v.s).value))
    ensures r == Some(NaN) ==> v == Number(NaN) || v == DateObject(NaN)
    ensures v.DateObject? ==> r == Some(v.time)
    ensures v.Object? ==> r == (if v.numericValue.Some? && v.numericValue.value.Finite? then v.numericValue else None)
    ensures v.Bool? ==> r == None
  {
    match v
    case Undefined => None
    case Null => None
    case Number(n) => Some(n)
    case DateObject(time) => Some(time)
    case Str(s) =>
      (match dateParse(s)
       case None => None
       case Some(ms) => Some(Finite(ms)))
    case Bool(_) => None
    case Object(numericValue) =>
      (match numericValue
       case Some(Finite(ms)) => Some(Finite(ms))
       case _ => None)
  }

  /** A normalised timestamp handed back to JavaScript: null or the number. */
  function AsJsValue(t: Option<JsNumber>): JsValue {
    match t
    case None => Null
    case Some(n) => Number(n)
  }

  /** Normalising is idempotent: a normalised timestamp normalises to itself. */
  lemma ParseTimestampIsIdempotent(dateParse: string -> Option<int>, v: JsValue)
    ensures ParseTimestamp(dateParse, AsJsValue(ParseTimestamp(dateParse, v))) == ParseTimestamp(dateParse, v)
  {
  }

  /** `resolveNightFlag(isNightHint)` at time `now`. */
  function ResolveNightFlag(hint: Option<bool>, sun: SunTimes, now: int): (night: bool)
    ensures hint.Some? ==> night == hint.value
    ensures hint.None? && !(TruthyNumber(sun.sunrise) && TruthyNumber(sun.sunset)) ==> !night
    ensures hint.None? && TruthyNumber(sun.sunrise) && TruthyNumber(sun.sunset) ==>
      (night <==> !(sun.sunrise.value.value <= now <= sun.sunset.value.value))
  {
    if hint.Some? then hint.value
    else if TruthyNumber(sun.sunrise) && TruthyNumber(sun.sunset) then
      now < sun.sunrise.value.value || now > sun.sunset.value.value
    else false
  }

  /** Day is reported only for an explicit `false`, or for a time inside a known
      sunrise-sunset window, or when the sun times are unknown. */
  lemma DayNeedsAReason(hint: Option<bool>, sun: SunTimes, now: int)
    requires !ResolveNightFlag(hint, sun, now)
    ensures
      || hint == Some(false)
      || (hint.None? && !(TruthyNumber(sun.sunrise) && TruthyNumber(sun.sunset)))
      || (hint.None? && sun.sunrise.value.value <= now <= sun.sunset.value.value)
  {
  }

  /** The sun times are consulted only when no flag is given: any flag wins. */
  lemma ExplicitFlagWins(flag: bool, sun: SunTimes, sun': SunTimes, now: int, now': int)
    ensures ResolveNightFlag(Some(flag), sun, now) == ResolveNightFlag(Some(flag), sun', now') == flag
  {
  }

  /** The night rule does not roll over midnight: with sunset before sunrise, every
      instant counts as night. */
  lemma InvertedWindowIsAlwaysNight(sunrise: int, sunset: int, now: int)
    requires sunrise != 0 && sunset != 0 && sunset < sunrise
    ensures ResolveNightFlag(None, SunTimes(Some(Finite(sunrise)), Some(Finite(sunset))), now)
  {
  }

  /** A zero or NaN sunrise or sunset counts as unknown, so the answer is day. */
  lemma FalsyTimeMeansDay(sunset: Option<JsNumber>, now: int)
    ensures !ResolveNightFlag(None, SunTimes(Some(Finite(0)), sunset), now)
    ensures !ResolveNightFlag(None, SunTimes(Some(NaN), sunset), now)
  {
  }

  /** Sunrise 100 and sunset 200: 50 is night, 150 is day, 250 is night; an explicit
      night flag wins at 150 even though 150 lies inside the window. */
  lemma WindowExamples()
    ensures var sun := SunTimes(Some(Finite(100)), Some(Finite(200)));
      && ResolveNightFlag(None, sun, 50)
      && !ResolveNightFlag(None, sun, 150)
      && ResolveNightFlag(None, sun, 250)
      && ResolveNightFlag(Some(true), sun, 150)
  {
  }
}

=== FILE: handlers.dfy ===
/**
 * The manual override gate and the notification handlers. Each handler is a
 * function from the state, the configuration, the host and the clock reading
 * `now` (standing for `Date.now()`) and its payload to the next state and the
 * request it makes of the playback sink.
 */
module Handlers {
  import opened JsValues
  import opened Classifier
  import opened DayNight
  import opened Media
  import opened Scenes

  /** The host functions the decisions call: `Date.parse` (None for NaN) and the
      module's `this.file` asset-path prefixing. */
  datatype Env = Env(dateParse: string -> Option<int>, file: string -> string)

  /** The ANIMATED_WEATHER_BACKGROUND_SET payload. A non-boolean `isNight` reads as
      None; a rate of 0 stands for an absent one. */
  datatype ManualRequest = ManualRequest(scene: Option<string>, spriteUrl: Option<string>, isNight: Option<bool>, playbackRate: int)

  /** `payload.currentWeather` of a WEATHER_UPDATED notification. */
  datatype CurrentWeather = CurrentWeather(weatherType: Option<string>, sunrise: JsValue, sunset: JsValue)

  datatype WeatherUpdate = WeatherUpdate(currentWeather: Option<CurrentWeather>)

  /** The AMBIENT_WEATHER_DATA payload; a non-boolean `isDaytime` reads as None. */
  datatype AmbientWeather = AmbientWeather(
    condition: Option<string>,
    conditionCode: Option<string>,
    icon: Option<string>,
    weather: Option<string>,
    isDaytime: Option<bool>,
    sunrise: JsValue,
    sunset: JsValue)

  /** The notifications `notificationReceived` tells apart; a null payload is None. */
  datatype Notification =
    | CurrentWeatherType(weatherType: Option<string>)
    | WeatherUpdated(update: Option<WeatherUpdate>)
    | AmbientWeatherData(ambient: Option<AmbientWeather>)
    | BackgroundSet(request: Option<ManualRequest>)
    | BackgroundClear
    | Unrelated

  /* ---------------------------------------------------------------------------
     The manual override gate
     --------------------------------------------------------------------------- */

  /** What `handleManualSet` stores (`payload.scene || null`, ...). */
  function OverrideFrom(cfg: Config, r: ManualRequest): Override {
    Override(
      if Truthy(r.scene) then r.scene else None,
      if Truthy(r.spriteUrl) then r.spriteUrl else None,
      r.isNight,
      EffectiveRate(r.playbackRate, cfg.videoPlaybackRate))
  }

  /** `override.scene || "manual"`. */
  function OverrideSceneKey(o: Override): (k: string)
    ensures k != ""
    ensures Truthy(o.scene) ==> k == o.scene.value
    ensures !Truthy(o.scene) ==> k == "manual"
  {
    if Truthy(o.scene) then o.scene.value else "manual"
  }

  /** `applyManualOverride()`. A raw url is used as given (after path resolution),
      with no table lookup and no video check; otherwise the override's scene key
      is looked up. The night flag is the override's own, else the sun-time rule. */
  function ApplyManualOverride(s: State, cfg: Config, env: Env, now: int): (t: Transition)
    ensures s.manualOverride.None? ==> t == Transition(s, Idle)
    ensures s.manualOverride.Some? ==> t.effect != Idle
    ensures s.manualOverride.Some? ==>
      (t.effect == Resume <==> t.effect != MissingMedia && ShowingOf(s) == ShowingOf(t.state))
    ensures t.state.sunTimes == s.sunTimes && t.state.manualOverride == s.manualOverride
    ensures t.effect == MissingMedia ==> t.state == s
    ensures s.manualOverride.Some? && t.effect != MissingMedia ==>
      var o := s.manualOverride.value;
      && t.state.scene == Some(OverrideSceneKey(o))
      && t.state.isNight == (if o.isNight.Some? then o.isNight.value else ResolveNightFlag(None, s.sunTimes, now))
      && (Truthy(o.spriteUrl) ==> t.state.spriteUrl == ResolveSpriteUrl(env.file, o.spriteUrl.value))
      && (Truthy(o.spriteUrl) ==> (t.state.mediaType == Video <==> IsVideoUrl(t.state.spriteUrl)))
      && (!Truthy(o.spriteUrl) ==> t.state.spriteUrl == LookupSprite(cfg, env.file, OverrideSceneKey(o), t.state.isNight).url)
    ensures (s.manualOverride.Some? && Truthy(s.manualOverride.value.spriteUrl)
             && Truthy(ResolveSpriteUrl(env.file, s.manualOverride.value.spriteUrl.value))) ==>
      && t.effect != MissingMedia
      && t.state.playbackRate == EffectiveRate(s.manualOverride.value.playbackRate, cfg.videoPlaybackRate)
    ensures s.manualOverride.Some? && !Truthy(s.manualOverride.value.spriteUrl) ==>
      var o := s.manualOverride.value;
      var isNight := if o.isNight.Some? then o.isNight.value else ResolveNightFlag(None, s.sunTimes, now);
      t == ApplyScene(s, cfg, env.file, OverrideSceneKey(o), isNight)
  {
    match s.manualOverride
    case None => Transition(s, Idle)
    case Some(o) =>
      var sceneKey := OverrideSceneKey(o);
      var isNight := if o.isNight.Some? then o.isNight.value else ResolveNightFlag(None, s.sunTimes, now);
      if Truthy(o.spriteUrl) then
        var info := SpriteInfo(
          ResolveSpriteUrl(env.file, o.spriteUrl.value),
          None,
          EffectiveRate(o.playbackRate, cfg.videoPlaybackRate));
        UpdateSprite(s, cfg, sceneKey, isNight, Some(info))
      else
        ApplyScene(s, cfg, env.file, sceneKey, isNight)
  }

  /** `handleManualSet(payload)`: ignores a payload with neither a scene nor a url;
      otherwise installs the override and applies it. */
  function HandleManualSet(s: State, cfg: Config, env: Env, now: int, request: Option<ManualRequest>): (t: Transition)
    ensures request.None? || (!Truthy(request.value.scene) && !Truthy(request.value.spriteUrl)) ==>
      t == Transition(s, Idle)
    ensures request.Some? && (Truthy(request.value.scene) || Truthy(request.value.spriteUrl)) ==>
      && t.state.manualOverride == Some(OverrideFrom(cfg, request.value))
      && t.state.sunTimes == s.sunTimes
      && t.effect != Idle
      && t == ApplyManualOverride(s.(manualOverride := Some(OverrideFrom(cfg, request.value))), cfg, env, now)
  {
    if request.None? || (!Truthy(request.value.scene) && !Truthy(request.value.spriteUrl)) then
      Transition(s, Idle)
    else
      ApplyManualOverride(s.(manualOverride := Some(OverrideFrom(cfg, request.value))), cfg, env, now)
  }

  /** The CLEAR branch of `notificationReceived`: drops the override and re-applies
      the scene and night flag on show, if there is a scene. */
  function HandleClear(s: State, cfg: Config, env: Env): (t: Transition)
    ensures t.state.manualOverride.None? && t.state.sunTimes == s.sunTimes
    ensures !Truthy(s.scene) ==> t == Transition(s.(manualOverride := None), Idle)
    ensures Truthy(s.scene) ==> t.effect != Idle
    ensures Truthy(s.scene) && t.effect != MissingMedia ==>
      t.state.scene == s.scene && t.state.isNight == s.isNight
    ensures t.effect == MissingMedia ==> t.state == s.(manualOverride := None)
    ensures Truthy(s.scene) ==> t == ApplyScene(s.(manualOverride := None), cfg, env.file, s.scene.value, s.isNight)
  {
    var cleared := s.(manualOverride := None);
    if Truthy(s.scene) then
      ApplyScene(cleared, cfg, env.file, s.scene.value, s.isNight)
    else
      Transition(cleared, Idle)
  }

  /* ---------------------------------------------------------------------------
     Weather notifications
     --------------------------------------------------------------------------- */

  /** `handleWeatherType(type)`. Without an override the classifier's hint, always a
      boolean, decides night; with one, the override is applied instead. */
  function HandleWeatherType(s: State, cfg: Config, env: Env, now: int, condition: Option<string>): (t: Transition)
    ensures !Truthy(condition) && s.manualOverride.None? ==> t == Transition(s, Idle)
    ensures s.manualOverride.Some? ==> t == ApplyManualOverride(s, cfg, env, now)
    ensures t.state.sunTimes == s.sunTimes && t.state.manualOverride == s.manualOverride
    ensures s.manualOverride.None? && Truthy(condition) && t.effect != MissingMedia ==>
      && t.state.scene == Some(NormalizeWeather(condition).scene)
      && t.state.isNight == NormalizeWeather(condition).isNightHint
    ensures s.manualOverride.None? && Truthy(condition) ==>
      t == ApplyScene(s, cfg, env.file, NormalizeWeather(condition).scene, NormalizeWeather(condition).isNightHint)
    ensures t.effect == MissingMedia ==> t.state == s
  {
    if !Truthy(condition) && s.manualOverride.None? then
      Transition(s, Idle)
    else if s.manualOverride.Some? then
      ApplyManualOverride(s, cfg, env, now)
    else
      var normalized := NormalizeWeather(condition);
      var isNight := ResolveNightFlag(Some(normalized.isNightHint), s.sunTimes, now);
      ApplyScene(s, cfg, env.file, normalized.scene, isNight)
  }

  /** The sun times a payload carries, normalised. */
  function ParseSunTimes(env: Env, sunrise: JsValue, sunset: JsValue): SunTimes {
    SunTimes(ParseTimestamp(env.dateParse, sunrise), ParseTimestamp(env.dateParse, sunset))
  }

  /** `handleWeatherUpdate(payload)`: replaces the sun times, then hands a truthy
      `weatherType` to the weather-type path. */
  function HandleWeatherUpdate(s: State, cfg: Config, env: Env, now: int, update: Option<WeatherUpdate>): (t: Transition)
    ensures update.None? || update.value.currentWeather.None? ==> t == Transition(s, Idle)
    ensures update.Some? && update.value.currentWeather.Some? ==>
      var cw := update.value.currentWeather.value;
      var s' := s.(sunTimes := ParseSunTimes(env, cw.sunrise, cw.sunset));
      && t.state.sunTimes == s'.sunTimes
      && t.state.manualOverride == s.manualOverride
      && (!Truthy(cw.weatherType) ==> t == Transition(s', Idle))
      && (Truthy(cw.weatherType) ==> t == HandleWeatherType(s', cfg, env, now, cw.weatherType))
  {
    if update.None? || update.value.currentWeather.None? then
      Transition(s, Idle)
    else
      var cw := update.value.currentWeather.value;
      var s' := s.(sunTimes := ParseSunTimes(env, cw.sunrise, cw.sunset));
      if Truthy(cw.weatherType) then
        HandleWeatherType(s', cfg, env, now, cw.weatherType)
      else
        Transition(s', Idle)
  }

  /** `condition || conditionCode || icon || weather || null`. */
  function AmbientCondition(p: AmbientWeather): (c: Option<string>)
    ensures Truthy(c) <==> Truthy(p.condition) || Truthy(p.conditionCode) || Truthy(p.icon) || Truthy(p.weather)
    ensures Truthy(p.condition) ==> c == p.condition
    ensures !Truthy(p.condition) && Truthy(p.conditionCode) ==> c == p.conditionCode
    ensures !Truthy(p.condition) && !Truthy(p.conditionCode) && Truthy(p.icon) ==> c == p.icon
    ensures !Truthy(p.condition) && !Truthy(p.conditionCode) && !Truthy(p.icon) && Truthy(p.weather) ==> c == p.weather
    ensures !Truthy(c) ==> c == None
  {
    OrElse(p.condition, OrElse(p.conditionCode, OrElse(p.icon, OrElse(p.weather, None))))
  }

  /** `handleAmbientWeather(payload)`: replaces the sun times; an explicit
      `isDaytime` decides night, else the sun-time rule (the classifier's night
      hint is not used here); an active override is applied instead of the
      classified scene. */
  function HandleAmbientWeather(s: State, cfg: Config, env: Env, now: int, ambient: Option<AmbientWeather>): (t: Transition)
    ensures ambient.None? ==> t == Transition(s, Idle)
    ensures ambient.Some? ==>
      var p := ambient.value;
      var s' := s.(sunTimes := ParseSunTimes(env, p.sunrise, p.sunset));
      && t.state.sunTimes == s'.sunTimes
      && t.state.manualOverride == s.manualOverride
      && (s.manualOverride.Some? ==> t == ApplyManualOverride(s', cfg, env, now))
      && (s.manualOverride.None? && !Truthy(AmbientCondition(p)) ==> t == Transition(s', Idle))
      && (s.manualOverride.None? && Truthy(AmbientCondition(p)) && t.effect != MissingMedia ==>
            && t.state.scene == Some(NormalizeWeather(AmbientCondition(p)).scene)
            && t.state.isNight == (if p.isDaytime.Some? then !p.isDaytime.value else ResolveNightFlag(None, s'.sunTimes, now)))
      && (s.manualOverride.None? && Truthy(AmbientCondition(p)) ==>
            t == ApplyScene(s', cfg, env.file, NormalizeWeather(AmbientCondition(p)).scene,
                            if p.isDaytime.Some? then !p.isDaytime.value else ResolveNightFlag(None, s'.sunTimes, now)))
  {
    match ambient
    case None => Transition(s, Idle)
    case Some(p) =>
      var s' := s.(sunTimes := ParseSunTimes(env, p.sunrise, p.sunset));
      var isNight := if p.isDaytime.Some? then !p.isDaytime.value else ResolveNightFlag(None, s'.sunTimes, now);
      var condition := AmbientCondition(p);
      if Truthy(condition) || s'.manualOverride.Some? then
        if s'.manualOverride.Some? then
          ApplyManualOverride(s', cfg, env, now)
        else
          ApplyScene(s', cfg, env.file, NormalizeWeather(condition).scene, isNight)
      else
        Transition(s', Idle)
  }

  /** `notificationReceived(notification, payload)`. */
  function NotificationReceived(s: State, cfg: Config, env: Env, now: int, n: Notification): (t: Transition)
    ensures n.Unrelated? ==> t == Transition(s, Idle)
    ensures n.CurrentWeatherType? ==> t == HandleWeatherType(s, cfg, env, now, n.weatherType)
    ensures n.WeatherUpdated? ==> t == HandleWeatherUpdate(s, cfg, env, now, n.update)
    ensures n.AmbientWeatherData? ==> t == HandleAmbientWeather(s, cfg, env, now, n.ambient)
    ensures n.BackgroundSet? ==> t == HandleManualSet(s, cfg, env, now, n.request)
    ensures n.BackgroundClear? ==> t == HandleClear(s, cfg, env)
    ensures n.BackgroundClear? && Truthy(s.scene) ==>
      t == ApplyScene(s.(manualOverride := None), cfg, env.file, s.scene.value, s.isNight)
    ensures !n.BackgroundSet? && !n.BackgroundClear? ==> t.state.manualOverride == s.manualOverride
    ensures n.BackgroundClear? ==> t.state.manualOverride.None?
    ensures n.CurrentWeatherType? || n.BackgroundSet? || n.BackgroundClear? ==> t.state.sunTimes == s.sunTimes
  {
    match n
    case CurrentWeatherType(condition) => HandleWeatherType(s, cfg, env, now, condition)
    case WeatherUpdated(update) => HandleWeatherUpdate(s, cfg, env, now, update)
    case AmbientWeatherData(ambient) => HandleAmbientWeather(s, cfg, env, now, ambient)
    case BackgroundSet(request) => HandleManualSet(s, cfg, env, now, request)
    case BackgroundClear => HandleClear(s, cfg, env)
    case Unrelated => Transition(s, Idle)
  }

  /* ---------------------------------------------------------------------------
     Properties of the gate
     --------------------------------------------------------------------------- */

  /** While an override is active, weather-type and ambient notifications show the
      override's scene (or leave the screen as it was), never a classified scene. */
  lemma OverrideGatesWeather(s: State, cfg: Config, env: Env, now: int, condition: Option<string>, p: AmbientWeather)
    requires s.manualOverride.Some?
    ensures var k := Some(OverrideSceneKey(s.manualOverride.value));
      && HandleWeatherType(s, cfg, env, now, condition).state.scene in {s.scene, k}
      && HandleAmbientWeather(s, cfg, env, now, Some(p)).state.scene in {s.scene, k}
      && HandleWeatherType(s, cfg, env, now, condition) == ApplyManualOverride(s, cfg, env, now)
      && HandleAmbientWeather(s, cfg, env, now, Some(p)) ==
         ApplyManualOverride(s.(sunTimes := ParseSunTimes(env, p.sunrise, p.sunset)), cfg, env, now)
  {
  }

  /** Without an override, the weather-type path never reads the sun times or the
      clock: the classifier's hint is always a boolean and always wins. */
  lemma WeatherTypeIgnoresSunTimes(s: State, cfg: Config, env: Env, now: int, now': int, sun': SunTimes, condition: Option<string>)
    requires s.manualOverride.None?
    ensures var t := HandleWeatherType(s, cfg, env, now, condition);
      var t' := HandleWeatherType(s.(sunTimes := sun'), cfg, env, now', condition);
      ShowingOf(t.state) == ShowingOf(t'.state) && t.effect == t'.effect
  {
  }

  /** A scene override's own playback rate is never read: the scene is looked up
      in the table and the entry's rate (else the configured rate) is used. */
  lemma SceneOverrideIgnoresItsRate(s: State, cfg: Config, env: Env, now: int, o: Override, rate: int)
    requires !Truthy(o.spriteUrl)
    ensures var t := ApplyManualOverride(s.(manualOverride := Some(o)), cfg, env, now);
      var t' := ApplyManualOverride(s.(manualOverride := Some(o.(playbackRate := rate))), cfg, env, now);
      ShowingOf(t.state) == ShowingOf(t'.state) && t.effect == t'.effect
  {
    var s1 := s.(manualOverride := Some(o));
    var s2 := s.(manualOverride := Some(o.(playbackRate := rate)));
    var isNight := if o.isNight.Some? then o.isNight.value else ResolveNightFlag(None, s.sunTimes, now);
    var key := OverrideSceneKey(o);
    assert OverrideSceneKey(o.(playbackRate := rate)) == key;
    assert ShowingOf(s1) == ShowingOf(s2);
    var info := Some(LookupSprite(cfg, env.file, key, isNight));
    assert ApplyManualOverride(s1, cfg, env, now) == UpdateSprite(s1, cfg, key, isNight, info);
    assert ApplyManualOverride(s2, cfg, env, now) == UpdateSprite(s2, cfg, key, isNight, info);
  }

  /** Setting a table-scene override and then clearing it leaves the override's
      scene on show: CLEAR re-applies the scene and night flag currently shown (the
      override's), not the last classified ones, and asks only for a resume. */
  lemma SetThenClearKeepsOverrideScene(s: State, cfg: Config, env: Env, now: int, r: ManualRequest)
    requires Truthy(r.scene) && !Truthy(r.spriteUrl)
    requires HandleManualSet(s, cfg, env, now, Some(r)).effect != MissingMedia
    ensures var t := HandleManualSet(s, cfg, env, now, Some(r)).state;
      var t' := HandleClear(t, cfg, env);
      && t'.state == t.(manualOverride := None)
      && t'.effect == Resume
      && t'.state.scene == r.scene
  {
    var o := OverrideFrom(cfg, r);
    var s1 := s.(manualOverride := Some(o));
    var isNight := if o.isNight.Some? then o.isNight.value else ResolveNightFlag(None, s.sunTimes, now);
    var t1 := ApplyScene(s1, cfg, env.file, r.scene.value, isNight);
    assert HandleManualSet(s, cfg, env, now, Some(r)) == t1;
    var info := LookupSprite(cfg, env.file, r.scene.value, isNight);
    assert ShowingOf(t1.state) == Requested(cfg, r.scene.value, isNight, info);
    var cleared := t1.state.(manualOverride := None);
    assert ShowingOf(cleared) == ShowingOf(t1.state);
  }
}

=== FILE: jsvalues.dfy ===
/**
 * The few JavaScript value shapes the background module's decisions depend on,
 * and the truthiness rules its `||` chains and `if (x)` guards rely on.
 */
module JsValues {

  /** `null`/`undefined` (None) or a present value (Some). */
  datatype Option<+T> = None | Some(value: T)

  /** A JavaScript number. Finite values are modelled as integers (epoch milliseconds,
      playback rates); NaN is kept apart because it is falsy and passes through
      `parseTimestamp` unchanged. */
  datatype JsNumber = NaN | Finite(value: int)

  /** The values a sunrise or sunset field of a weather payload may hold. `Object`
      carries what its `valueOf()` yields when that is a number, and None when the
      object has no `valueOf` method or it yields something else. */
  datatype JsValue =
    | Undefined
    | Null
    | Bool(b: bool)
    | Number(n: JsNumber)
    | Str(s: string)
    | DateObject(time: JsNumber)
    | Object(numericValue: Option<JsNumber>)

  /** Truthiness of an optional string: null, undefined and "" are falsy. */
  predicate Truthy(s: Option<string>) {
    s.Some? && s.value != ""
  }

  /** Truthiness of an optional number: null, undefined, NaN and 0 are falsy. */
  predicate TruthyNumber(n: Option<JsNumber>) {
    n.Some? && n.value.Finite? && n.value.value != 0
  }

  /** `a || b` on optional strings. */
  function OrElse(a: Option<string>, b: Option<string>): (r: Option<string>)
    ensures Truthy(r) <==> Truthy(a) || Truthy(b)
    ensures Truthy(a) ==> r == a
    ensures !Truthy(a) ==> r == b
  {
    if Truthy(a) then a else b
  }

  /** `a || b` on playback rates, where 0 stands for every falsy rate
      (undefined, null, 0, NaN). */
  function OrRate(a: int, b: int): (r: int)
    ensures r != 0 <==> a != 0 || b != 0
    ensures a != 0 ==> r == a
    ensures a == 0 ==> r == b
  {
    if a != 0 then a else b
  }

  /** `requested || configured || 1`: the rate the module settles on when a
      request or a table entry leaves it unset. */
  function EffectiveRate(requested: int, configured: int): (r: int)
    ensures r != 0
    ensures requested != 0 ==> r == requested
    ensures requested == 0 && configured != 0 ==> r == configured
    ensures requested == 0 && configured == 0 ==> r == 1
  {
    OrRate(requested, OrRate(configured, 1))
  }
}

=== FILE: media.dfy ===
/**
 * The media resolver: the video-extension test (`isVideoUrl`), path
 * normalisation (`resolveSpriteUrl`), the sprite table and its entries
 * (`normalizeSpriteConfig`), and the lookup with its day/night and `default`
 * fallbacks (`lookupSprite`).
 */
module Media {
  import opened JsValues
  import opened Text

  /* ---------------------------------------------------------------------------
     isVideoUrl: the regular expression /\.(mp4|webm|mov|m4v)(\?.*)?$/i
     --------------------------------------------------------------------------- */

  const VideoExtensions: seq<string> := ["mp4", "webm", "mov", "m4v"]

  /** `p` ends in a dot and a video extension, letters compared without regard to case. */
  predicate EndsWithVideoExtension(p: string) {
    exists e | e in VideoExtensions :: |e| < |p| && p[|p| - |e| - 1] == '.' && Lower(p[|p| - |e|..]) == e
  }

  /** The optional query part `(\?.*)?` followed by the end of input: empty, or a
      question mark and then characters none of which is a line terminator. */
  predicate IsQuerySuffix(q: string) {
    q == [] || (q[0] == '?' && forall k | 1 <= k < |q| :: !IsLineTerminator(q[k]))
  }

  /** The pattern matches with the extension ending at offset `j` of `p`. */
  ghost predicate SplitsAt(p: string, j: int) {
    0 <= j <= |p| && EndsWithVideoExtension(p[..j]) && IsQuerySuffix(p[j..])
  }

  /** What the regular expression accepts: some offset splits `p` into a head
      ending in `.ext` and a query suffix. */
  ghost predicate MatchesVideoPattern(p: string) {
    exists j :: SplitsAt(p, j)
  }

  /** The extension can end at offset `j`: the end of input or a question mark
      follows it. */
  predicate HeadAt(p: string, j: nat)
    requires j <= |p|
  {
    (j == |p| || p[j] == '?') && EndsWithVideoExtension(p[..j])
  }

  /** `f` holds at some offset in 0..j. */
  ghost predicate AnyUpTo(f: int -> bool, j: nat)
    decreases j
  {
    f(j) || (j > 0 && AnyUpTo(f, j - 1))
  }

  lemma {:induction false} AnyUpToIsSome(f: int -> bool, j: nat)
    ensures AnyUpTo(f, j) <==> exists k | 0 <= k <= j :: f(k)
    decreases j
  {
    if j > 0 {
      AnyUpToIsSome(f, j - 1);
      if exists k | 0 <= k <= j :: f(k) {
        var k :| 0 <= k <= j && f(k);
        assert k == j || (0 <= k <= j - 1 && f(k));
      }
    }
  }

  /** Some offset in 0..j splits `p`. */
  ghost predicate SplitsUpTo(p: string, j: nat) {
    AnyUpTo(k => SplitsAt(p, k), j)
  }

  lemma SplitsUpToIsSomeSplit(p: string, j: nat)
    ensures SplitsUpTo(p, j) <==> exists k | 0 <= k <= j :: SplitsAt(p, k)
  {
    var f := k => SplitsAt(p, k);
    AnyUpToIsSome(f, j);
    assert forall k :: f(k) == SplitsAt(p, k);
  }

  /** Tries the split points `j`, `j - 1`, ..., 0 from the right, stopping at the
      first line terminator (no split to its left can have a query suffix). */
  function ScanSplits(p: string, j: nat): (r: bool)
    requires j <= |p|
    requires forall k | j < k < |p| :: !IsLineTerminator(p[k])
    ensures r <==> SplitsUpTo(p, j)
    decreases j
  {
    if HeadAt(p, j) then
      SplitAtHead(p, j);
      true
    else if j < |p| && IsLineTerminator(p[j]) then
      NoSplitBeforeTerminator(p, j);
      SplitsUpToIsSomeSplit(p, j);
      false
    else
      SplitAtOnlyIfHead(p, j);
      if j == 0 then false else ScanSplits(p, j - 1)
  }

  lemma SplitAtOnlyIfHead(p: string, j: nat)
    requires j <= |p|
    ensures SplitsAt(p, j) ==> HeadAt(p, j)
  {
  }

  lemma SplitAtHead(p: string, j: nat)
    requires j <= |p|
    requires forall k | j < k < |p| :: !IsLineTerminator(p[k])
    requires HeadAt(p, j)
    ensures SplitsAt(p, j)
  {
    if j < |p| {
      assert forall k | 1 <= k < |p[j..]| :: p[j..][k] == p[j + k];
    }
  }

  lemma NoSplitBeforeTerminator(p: string, j: nat)
    requires j < |p| && IsLineTerminator(p[j])
    ensures forall k | 0 <= k <= j :: !SplitsAt(p, k)
  {
    forall k | 0 <= k < j
      ensures !IsQuerySuffix(p[k..])
    {
      assert p[k..][j - k] == p[j];
    }
  }

  /** `isVideoUrl(path)`: null and "" are not video paths. */
  function IsVideoUrl(path: Option<string>): (r: bool)
    ensures r <==> path.Some? && MatchesVideoPattern(path.value)
  {
    if !Truthy(path) then
      false
    else
      SplitsUpToIsSomeSplit(path.value, |path.value|);
      ScanSplits(path.value, |path.value|)
  }

  /** A path ending in ".mp4" is a video path, whatever precedes it. */
  lemma Mp4IsVideo(p: string)
    requires |p| >= 4 && p[|p| - 4..] == ".mp4"
    ensures IsVideoUrl(Some(p))
  {
    Mp4IsVideoHead(p);
    assert p[..|p|] == p;
    assert SplitsAt(p, |p|);
  }

  lemma Mp4IsVideoHead(p: string)
    requires |p| >= 4 && p[|p| - 4..] == ".mp4"
    ensures EndsWithVideoExtension(p)
  {
    assert p[|p| - 4] == p[|p| - 4..][0];
    assert p[|p| - 3..] == p[|p| - 4..][1..];
    assert "mp4" in VideoExtensions;
  }

  /** A query string after the extension is accepted, in any letter case. */
  lemma QueryAfterExtensionIsVideo()
    ensures IsVideoUrl(Some("a.MP4?v=2"))
  {
    QuerySplit("a.MP4?v=2");
  }

  lemma QuerySplit(p: string)
    requires p == "a.MP4?v=2"
    ensures SplitsAt(p, 5)
  {
    var h := p[..5];
    assert h[2..] == "MP4" && Lower("MP4") == "mp4" && "mp4" in VideoExtensions;
    assert EndsWithVideoExtension(h);
    assert IsQuerySuffix(p[5..]);
  }

  /** Without a question mark, the test is just "ends in a dot and a video extension". */
  lemma WithoutQueryOnlyTheEndCounts(p: string)
    requires forall k | 0 <= k < |p| :: p[k] != '?'
    ensures IsVideoUrl(Some(p)) <==> EndsWithVideoExtension(p)
  {
    if EndsWithVideoExtension(p) {
      assert p[..|p|] == p;
      assert SplitsAt(p, |p|);
    }
    if MatchesVideoPattern(p) {
      var j :| SplitsAt(p, j);
      OnlyEndSplits(p, j);
      assert p[..j] == p;
    }
  }

  lemma OnlyEndSplits(p: string, j: int)
    requires forall k | 0 <= k < |p| :: p[k] != '?'
    requires SplitsAt(p, j)
    ensures j == |p|
  {
  }

  /** Still images are not video paths. */
  lemma ImageIsNotVideo()
    ensures !IsVideoUrl(Some("a.gif"))
  {
    GifIsNotVideo("a.gif");
  }

  lemma GifIsNotVideo(p: string)
    requires p == "a.gif"
    ensures !IsVideoUrl(Some(p))
  {
    assert forall k | 0 <= k < |p| :: p[k] != '?';
    assert p[2..] == "gif" && Lower("gif") == "gif" && p[0] != '.';
    assert !EndsWithVideoExtension(p);
    WithoutQueryOnlyTheEndCounts(p);
  }

  /* ---------------------------------------------------------------------------
     resolveSpriteUrl
     --------------------------------------------------------------------------- */

  /** `/^https?:\/\//i`. */
  predicate IsHttpUrl(p: string) {
    StartsWith(Lower(p), "http://") || StartsWith(Lower(p), "https://")
  }

  /** Absolute URLs, data URLs and paths rooted at "/" are used as given. */
  predicate PassesThrough(p: string) {
    IsHttpUrl(p) || StartsWith(p, "data:") || StartsWith(p, "/")
  }

  /** `/^modules\//i`: a path already under the host's module directory. */
  predicate IsModulesPath(p: string) {
    StartsWith(Lower(p), "modules/")
  }

  /** `path.replace(/^\/?/, "")`. */
  function StripLeadingSlash(p: string): string {
    if StartsWith(p, "/") then p[1..] else p
  }

  /** `resolveSpriteUrl(path)`; `file` stands for the host's `this.file`, which
      prefixes the module's asset directory. */
  function ResolveSpriteUrl(file: string -> string, path: string): (r: Option<string>)
    ensures r.None? <==> path == ""
    ensures PassesThrough(path) ==> r == Some(path)
    ensures path != "" && !PassesThrough(path) && IsModulesPath(path) ==>
      r.Some? && |r.value| == |path| + 1 && r.value[0] == '/' && r.value[1..] == path && path[0] != '/'
    ensures path != "" && !PassesThrough(path) && !IsModulesPath(path) ==> r == Some(file(path))
  {
    if path == "" then None
    else if PassesThrough(path) then Some(path)
    else if IsModulesPath(path) then Some("/" + StripLeadingSlash(path))
    else Some(file(path))
  }

  /** Resolving is idempotent on every result it does not hand to `file`: those
      results are rooted or absolute, so they pass through unchanged. */
  lemma ResolveIsStable(file: string -> string, path: string)
    requires path != "" && (PassesThrough(path) || IsModulesPath(path))
    ensures ResolveSpriteUrl(file, ResolveSpriteUrl(file, path).value) == ResolveSpriteUrl(file, path)
  {
    var r := ResolveSpriteUrl(file, path).value;
    assert StartsWith(r, "/") || PassesThrough(path);
  }

  /* ---------------------------------------------------------------------------
     The sprite table
     --------------------------------------------------------------------------- */

  /** A table entry: one path for day and night, or a `{day, night, playbackRate}`
      object. Slots hold "" when absent, null or empty (the code only tests them for
      truthiness); a playback rate of 0 stands for an absent one. */
  datatype SpriteEntry =
    | Path(path: string)
    | Pair(day: string, night: string, playbackRate: int)

  /** The configuration the decisions read: the scene table (a missing
      `spriteSheets` reads as an empty table) and `videoPlaybackRate`. */
  datatype Config = Config(spriteSheets: map<string, SpriteEntry>, videoPlaybackRate: int)

  /** "videos/<name>.mp4", the form of every path in the shipped table. */
  function Asset(name: string): string {
    "videos/" + name + ".mp4"
  }

  /** The table and rate the module ships with. */
  const DefaultConfig := Config(
    map[
      "clear" := Pair(Asset("clear-day"), Asset("clear-night"), 0),
      "partly_cloudy" := Pair(Asset("partly-cloudy-day"), Asset("partly-cloudy-night"), 0),
      "cloudy" := Pair(Asset("cloudy-day"), Asset("cloudy-night"), 0),
      "rain" := Pair(Asset("rain-day"), Asset("rain-day"), 0),
      "sleet" := Pair(Asset("rain-day"), Asset("rain-day"), 0),
      "thunderstorm" := Pair(Asset("rain-day"), Asset("rain-day"), 0),
      "snow" := Pair(Asset("cloudy-day"), Asset("cloudy-night"), 0),
      "fog" := Pair(Asset("cloudy-day"), Asset("cloudy-night"), 0),
      "wind" := Pair(Asset("cloudy-day"), Asset("cloudy-night"), 0),
      "default" := Pair(Asset("clear-day"), Asset("clear-night"), 0)
    ],
    1)

  /** `sprites[key]`, None when the key is absent. */
  function Get(m: map<string, SpriteEntry>, key: string): Option<SpriteEntry> {
    if key in m then Some(m[key]) else None
  }

  /** Truthiness of a table entry: an object is truthy, a string when non-empty. */
  predicate EntryTruthy(e: Option<SpriteEntry>) {
    e.Some? && (e.value.Pair? || e.value.path != "")
  }

  /** `sprites.default || {}`, with None for the empty object. */
  function DefaultEntry(cfg: Config): Option<SpriteEntry> {
    if EntryTruthy(Get(cfg.spriteSheets, "default")) then Get(cfg.spriteSheets, "default") else None
  }

  /** `sprites[sceneKey] || sprites.default || {}`. */
  function SceneEntry(cfg: Config, sceneKey: string): (e: Option<SpriteEntry>)
    ensures e.None? || EntryTruthy(e)
    ensures EntryTruthy(Get(cfg.spriteSheets, sceneKey)) ==> e == Get(cfg.spriteSheets, sceneKey)
    ensures !EntryTruthy(Get(cfg.spriteSheets, sceneKey)) ==> e == DefaultEntry(cfg)
  {
    if EntryTruthy(Get(cfg.spriteSheets, sceneKey)) then Get(cfg.spriteSheets, sceneKey) else DefaultEntry(cfg)
  }

  /** `normalizeSpriteConfig(entry)`: a string entry serves both day and night. */
  function NormalizeSpriteConfig(entry: Option<SpriteEntry>): (r: SpriteEntry)
    ensures r.Pair?
    ensures entry.Some? && entry.value.Path? ==>
      r.day == entry.value.path && r.night == entry.value.path && r.playbackRate == 0
    ensures entry.Some? && entry.value.Pair? ==> r == entry.value
    ensures entry.None? ==> r == Pair("", "", 0)
  {
    match entry
    case None => Pair("", "", 0)
    case Some(Path(p)) => Pair(p, p, 0)
    case Some(e) => e
  }

  /** Normalising an entry a second time changes nothing. */
  lemma NormalizeSpriteConfigIsIdempotent(entry: Option<SpriteEntry>)
    ensures NormalizeSpriteConfig(Some(NormalizeSpriteConfig(entry))) == NormalizeSpriteConfig(entry)
  {
  }

  /** `url || fallbackUrl`: the requested slot, else the opposite slot. */
  function PreferredPath(entry: SpriteEntry, isNight: bool): (p: string)
    requires entry.Pair?
    ensures p == "" <==> entry.day == "" && entry.night == ""
    ensures (if isNight then entry.night else entry.day) != "" ==> p == (if isNight then entry.night else entry.day)
    ensures (if isNight then entry.night else entry.day) == "" ==> p == (if isNight then entry.day else entry.night)
  {
    var primary := if isNight then entry.night else entry.day;
    var secondary := if isNight then entry.day else entry.night;
    if primary != "" then primary else secondary
  }

  /** The url an entry offers for a day/night slot, after path resolution. */
  function CandidateUrl(file: string -> string, entry: Option<SpriteEntry>, isNight: bool): Option<string> {
    ResolveSpriteUrl(file, PreferredPath(NormalizeSpriteConfig(entry), isNight))
  }

  datatype MediaType = Video | Image

  /** What `lookupSprite` hands to `updateSprite`; a manual override builds one
      without a type. */
  datatype SpriteInfo = SpriteInfo(url: Option<string>, mediaType: Option<MediaType>, playbackRate: int)

  /** `lookupSprite(sceneKey, isNight)`. */
  function LookupSprite(cfg: Config, file: string -> string, sceneKey: string, isNight: bool): (info: SpriteInfo)
    ensures info.mediaType == Some(Video)
    ensures info.url.None? || IsVideoUrl(info.url)
    ensures info.playbackRate != 0
    ensures info.url.None? ==>
      !IsVideoUrl(CandidateUrl(file, SceneEntry(cfg, sceneKey), isNight))
      && !IsVideoUrl(CandidateUrl(file, DefaultEntry(cfg), isNight))
    ensures info.url.Some? ==>
      info.url == CandidateUrl(file, SceneEntry(cfg, sceneKey), isNight)
      || info.url == CandidateUrl(file, DefaultEntry(cfg), isNight)
    ensures IsVideoUrl(CandidateUrl(file, SceneEntry(cfg, sceneKey), isNight)) ==>
      info.url == CandidateUrl(file, SceneEntry(cfg, sceneKey), isNight)
    ensures info.playbackRate == EffectiveRate(NormalizeSpriteConfig(SceneEntry(cfg, sceneKey)).playbackRate, cfg.videoPlaybackRate)
  {
    var entry := NormalizeSpriteConfig(SceneEntry(cfg, sceneKey));
    var url := ResolveSpriteUrl(file, PreferredPath(entry, isNight));
    var spriteUrl :=
      if IsVideoUrl(url) then url
      else
        var defaultUrl := CandidateUrl(file, DefaultEntry(cfg), isNight);
        if IsVideoUrl(defaultUrl) then defaultUrl else None;
    SpriteInfo(spriteUrl, Some(Video), EffectiveRate(entry.playbackRate, cfg.videoPlaybackRate))
  }

  /** A scene the table lacks (or maps to a falsy entry) is looked up as `default`. */
  lemma MissingSceneUsesDefault(cfg: Config, file: string -> string, sceneKey: string, isNight: bool)
    requires !EntryTruthy(Get(cfg.spriteSheets, sceneKey))
    ensures LookupSprite(cfg, file, sceneKey, isNight) == LookupSprite(cfg, file, "default", isNight)
  {
  }

  /** A string entry offers the same url for day and night; when that url is a
      video, both slots show it. */
  lemma PathEntryServesDayAndNight(cfg: Config, file: string -> string, sceneKey: string, path: string)
    requires Get(cfg.spriteSheets, sceneKey) == Some(Path(path)) && path != ""
    ensures CandidateUrl(file, SceneEntry(cfg, sceneKey), true) == ResolveSpriteUrl(file, path)
    ensures CandidateUrl(file, SceneEntry(cfg, sceneKey), false) == ResolveSpriteUrl(file, path)
    ensures IsVideoUrl(ResolveSpriteUrl(file, path)) ==>
      LookupSprite(cfg, file, sceneKey, true).url == ResolveSpriteUrl(file, path)
    ensures IsVideoUrl(ResolveSpriteUrl(file, path)) ==>
      LookupSprite(cfg, file, sceneKey, false).url == ResolveSpriteUrl(file, path)
  {
  }

  /** An empty requested slot borrows the opposite slot of the same entry. */
  lemma EmptySlotUsesOppositeSlot(cfg: Config, file: string -> string, sceneKey: string, isNight: bool)
    requires Get(cfg.spriteSheets, sceneKey).Some? && Get(cfg.spriteSheets, sceneKey).value.Pair?
    requires var e := Get(cfg.spriteSheets, sceneKey).value;
      (if isNight then e.night else e.day) == ""
    requires var e := Get(cfg.spriteSheets, sceneKey).value;
      IsVideoUrl(ResolveSpriteUrl(file, if isNight then e.day else e.night))
    ensures var e := Get(cfg.spriteSheets, sceneKey).value;
      LookupSprite(cfg, file, sceneKey, isNight).url == ResolveSpriteUrl(file, if isNight then e.day else e.night)
  {
  }

  /** A non-video candidate gives way to the default entry's video, or to no media
      at all when the default entry offers no video either. */
  lemma NonVideoFallsBackToDefault(cfg: Config, file: string -> string, sceneKey: string, isNight: bool)
    requires !IsVideoUrl(CandidateUrl(file, SceneEntry(cfg, sceneKey), isNight))
    ensures IsVideoUrl(CandidateUrl(file, DefaultEntry(cfg), isNight)) ==>
      LookupSprite(cfg, file, sceneKey, isNight).url == CandidateUrl(file, DefaultEntry(cfg), isNight)
    ensures !IsVideoUrl(CandidateUrl(file, DefaultEntry(cfg), isNight)) ==>
      LookupSprite(cfg, file, sceneKey, isNight).url == None
  {
  }

  /** The playback rate comes from the scene's own entry, else the configured rate,
      else 1, whichever slot or fallback supplied the url. */
  lemma RateComesFromSceneEntry(cfg: Config, file: string -> string, sceneKey: string, rate: int, isNight: bool)
    requires EntryTruthy(Get(cfg.spriteSheets, sceneKey))
    requires Get(cfg.spriteSheets, sceneKey).value.Pair? && Get(cfg.spriteSheets, sceneKey).value.playbackRate == rate
    ensures rate != 0 ==> LookupSprite(cfg, file, sceneKey, isNight).playbackRate == rate
    ensures rate == 0 ==> LookupSprite(cfg, file, sceneKey, isNight).playbackRate == EffectiveRate(cfg.videoPlaybackRate, 1)
    ensures LookupSprite(cfg, file, sceneKey, isNight).playbackRate == LookupSprite(cfg, file, sceneKey, !isNight).playbackRate
  {
  }

  /** A path of the shipped table: relative, under "videos/", an ".mp4" file. */
  predicate ShippedPath(p: string) {
    StartsWith(p, "videos/") && |p| >= 4 && p[|p| - 4..] == ".mp4"
  }

  lemma ShippedTablePaths()
    ensures forall k | k in DefaultConfig.spriteSheets ::
      DefaultConfig.spriteSheets[k].Pair?
      && ShippedPath(DefaultConfig.spriteSheets[k].day)
      && ShippedPath(DefaultConfig.spriteSheets[k].night)
      && DefaultConfig.spriteSheets[k].playbackRate == 0
    ensures "default" in DefaultConfig.spriteSheets
  {
    var m := DefaultConfig.spriteSheets;
    forall k | k in m
      ensures m[k].Pair? && ShippedPath(m[k].day) && ShippedPath(m[k].night) && m[k].playbackRate == 0
    {
      assert m[k] in m.Values;
      assert exists d, n :: m[k] == Pair(Asset(d), Asset(n), 0);
      var d, n :| m[k] == Pair(Asset(d), Asset(n), 0);
      AssetIsShipped(d);
      AssetIsShipped(n);
    }
  }

  lemma AssetIsShipped(name: string)
    ensures ShippedPath(Asset(name))
  {
    var p := Asset(name);
    assert p[..7] == "videos/";
    assert p[|p| - 4..] == ".mp4";
  }

  /** A shipped path is handed to `file`: it is neither absolute nor rooted nor
      under "modules/". */
  lemma ShippedPathGoesToFile(file: string -> string, p: string)
    requires ShippedPath(p)
    ensures ResolveSpriteUrl(file, p) == Some(file(p))
  {
    assert p[0] == 'v';
    assert Lower(p)[0] == 'v';
  }

  /** With the shipped table and a `file` that prefixes an asset directory, every
      scene key, including keys the table lacks, finds a video for day and night,
      played at the configured rate 1. */
  lemma ShippedTableAlwaysFindsVideo(file: string -> string, base: string, sceneKey: string, isNight: bool)
    requires forall p :: file(p) == base + p
    ensures LookupSprite(DefaultConfig, file, sceneKey, isNight).url.Some?
    ensures LookupSprite(DefaultConfig, file, sceneKey, isNight).playbackRate == 1
  {
    ShippedTablePaths();
    var e := SceneEntry(DefaultConfig, sceneKey);
    assert e.Some? && e.value in DefaultConfig.spriteSheets.Values;
    ShippedCandidateIsVideo(file, base, e.value, isNight);
  }

  /** Each shipped entry offers, through such a `file`, a video for either slot. */
  lemma ShippedCandidateIsVideo(file: string -> string, base: string, e: SpriteEntry, isNight: bool)
    requires forall p :: file(p) == base + p
    requires e.Pair? && ShippedPath(e.day) && ShippedPath(e.night)
    ensures IsVideoUrl(CandidateUrl(file, Some(e), isNight))
  {
    var path := PreferredPath(NormalizeSpriteConfig(Some(e)), isNight);
    assert ShippedPath(path);
    ShippedPathGoesToFile(file, path);
    assert file(path) == base + path;
    ShippedPathUnderBaseIsVideo(base, path);
  }

  lemma ShippedPathUnderBaseIsVideo(base: string, path: string)
    requires ShippedPath(path)
    ensures IsVideoUrl(Some(base + path))
  {
    var url := base + path;
    assert url[|url| - 4..] == path[|path| - 4..];
    Mp4IsVideo(url);
  }
}

=== FILE: scenes.dfy ===
/**
 * The scene state machine: the module's state record, the reload guard of
 * `updateSprite`, `applyScene` (lookup then update) and the state `start` seeds.
 */
module Scenes {
  import opened JsValues
  import opened DayNight
  import opened Media

  /** An active manual override, as `handleManualSet` stores it. */
  datatype Override = Override(scene: Option<string>, spriteUrl: Option<string>, isNight: Option<bool>, playbackRate: int)

  /** The module's fields: the scene on show (`scene`, `isNight`, `spriteUrl`,
      `spriteMeta.type`, `spriteMeta.playbackRate`), the last sun times and the
      manual override. */
  datatype State = State(
    scene: Option<string>,
    isNight: bool,
    spriteUrl: Option<string>,
    mediaType: MediaType,
    playbackRate: int,
    sunTimes: SunTimes,
    manualOverride: Option<Override>)

  /** The five fields the reload guard compares. */
  datatype Showing = Showing(scene: Option<string>, isNight: bool, spriteUrl: Option<string>, mediaType: MediaType, playbackRate: int)

  function ShowingOf(s: State): Showing {
    Showing(s.scene, s.isNight, s.spriteUrl, s.mediaType, s.playbackRate)
  }

  /** What a step asks of the playback sink: nothing, a "no media" warning,
      resuming the current video if it is paused, or running `applySprite` on the
      new state (which loads the video only when its url changed). */
  datatype Effect = Idle | MissingMedia | Resume | Reload

  datatype Transition = Transition(state: State, effect: Effect)

  /** `spriteInfo && spriteInfo.url`. */
  predicate HasUrl(info: Option<SpriteInfo>) {
    info.Some? && Truthy(info.value.url)
  }

  /** `spriteInfo.type || (isVideoUrl(url) ? "video" : "image")`. */
  function NextType(info: SpriteInfo): (t: MediaType)
    ensures info.mediaType.None? ==> (t == Video <==> IsVideoUrl(info.url))
    ensures info.mediaType.Some? ==> t == info.mediaType.value
  {
    if info.mediaType.Some? then info.mediaType.value
    else if IsVideoUrl(info.url) then Video
    else Image
  }

  /** The scene a request asks to show, with the type and rate `updateSprite` settles on. */
  function Requested(cfg: Config, sceneKey: string, isNight: bool, info: SpriteInfo): Showing {
    Showing(Some(sceneKey), isNight, info.url, NextType(info), EffectiveRate(info.playbackRate, cfg.videoPlaybackRate))
  }

  /** `updateSprite(sceneKey, isNight, spriteInfo)`: rejects a request without a url,
      treats a request for exactly what is showing as a no-op (at most a resume),
      and otherwise replaces the five fields at once and reloads. */
  function UpdateSprite(s: State, cfg: Config, sceneKey: string, isNight: bool, info: Option<SpriteInfo>): (t: Transition)
    ensures !HasUrl(info) ==> t == Transition(s, MissingMedia)
    ensures HasUrl(info) ==> ShowingOf(t.state) == Requested(cfg, sceneKey, isNight, info.value)
    ensures t.state.sunTimes == s.sunTimes && t.state.manualOverride == s.manualOverride
    ensures t.effect == Resume <==> HasUrl(info) && ShowingOf(s) == Requested(cfg, sceneKey, isNight, info.value)
    ensures t.effect == Reload <==> HasUrl(info) && ShowingOf(s) != Requested(cfg, sceneKey, isNight, info.value)
    ensures t.effect != Reload ==> t.state == s
  {
    if !HasUrl(info) then
      Transition(s, MissingMedia)
    else
      var url := info.value.url;
      var nextType := NextType(info.value);
      var nextPlayback := EffectiveRate(info.value.playbackRate, cfg.videoPlaybackRate);
      var isSameScene :=
        && s.scene == Some(sceneKey)
        && s.isNight == isNight
        && s.spriteUrl == url
        && s.mediaType == nextType
        && s.playbackRate == nextPlayback;
      if isSameScene then
        Transition(s, Resume)
      else
        Transition(
          s.(scene := Some(sceneKey), isNight := isNight, spriteUrl := url, mediaType := nextType, playbackRate := nextPlayback),
          Reload)
  }

  /** Repeating a request changes nothing and never reloads. */
  lemma UpdateIsIdempotent(s: State, cfg: Config, sceneKey: string, isNight: bool, info: Option<SpriteInfo>)
    ensures var t := UpdateSprite(s, cfg, sceneKey, isNight, info);
      var t' := UpdateSprite(t.state, cfg, sceneKey, isNight, info);
      t'.state == t.state && t'.effect != Reload && (HasUrl(info) ==> t'.effect == Resume)
  {
  }

  /** `applyScene(sceneKey, isNight)`: look the scene up in the table, then update. */
  function ApplyScene(s: State, cfg: Config, file: string -> string, sceneKey: string, isNight: bool): (t: Transition)
    ensures t.effect != Idle
    ensures t.effect == MissingMedia <==> LookupSprite(cfg, file, sceneKey, isNight).url.None?
    ensures t.effect == MissingMedia ==> t.state == s
    ensures t.effect != MissingMedia ==>
      && t.state.scene == Some(sceneKey)
      && t.state.isNight == isNight
      && t.state.mediaType == Video
      && IsVideoUrl(t.state.spriteUrl)
      && t.state.spriteUrl == LookupSprite(cfg, file, sceneKey, isNight).url
      && t.state.playbackRate == LookupSprite(cfg, file, sceneKey, isNight).playbackRate
    ensures t.effect == Resume <==>
      t.effect != MissingMedia && ShowingOf(s) == ShowingOf(t.state)
    ensures t.state.sunTimes == s.sunTimes && t.state.manualOverride == s.manualOverride
  {
    UpdateSprite(s, cfg, sceneKey, isNight, Some(LookupSprite(cfg, file, sceneKey, isNight)))
  }

  /** The state `start` seeds and then passes to `applyScene("default", false)`. */
  function Seed(cfg: Config): State {
    State(None, false, None, Video, OrRate(cfg.videoPlaybackRate, 1), UnknownSunTimes, None)
  }

  /** `start()`: the initial backdrop is the table's `default` day video, or nothing
      when the table offers no video for it. */
  function Start(cfg: Config, file: string -> string): (s: State)
    ensures s.sunTimes == UnknownSunTimes && s.manualOverride.None?
    ensures !s.isNight && s.mediaType == Video && s.playbackRate != 0
    ensures s.spriteUrl == LookupSprite(cfg, file, "default", false).url
    ensures s.scene == (if s.spriteUrl.Some? then Some("default") else None)
    ensures s.playbackRate ==
      (if s.spriteUrl.Some? then LookupSprite(cfg, file, "default", false).playbackRate
       else EffectiveRate(cfg.videoPlaybackRate, 1))
  {
    ApplyScene(Seed(cfg), cfg, file, "default", false).state
  }
}

=== FILE: session.dfy ===
/**
 * A run of the module: the state `start` seeds, then one notification after
 * another. The invariant `Valid` says what every reachable state looks like,
 * and every handler keeps it.
 */
module Session {
  import opened JsValues
  import DayNight
  import Classifier
  import opened Media
  import opened Scenes
  import opened Handlers

  /** A stored override has a non-empty scene or url (the ones it has are
      non-empty) and a non-zero rate. */
  predicate OverrideValid(o: Override) {
    && (o.scene.Some? ==> o.scene.value != "")
    && (o.spriteUrl.Some? ==> o.spriteUrl.value != "")
    && (o.scene.Some? || o.spriteUrl.Some?)
    && o.playbackRate != 0
  }

  /** Scene and url are set together and never empty, the rate is never falsy,
      the media type agrees with the url's extension, and any override is valid. */
  predicate Valid(s: State) {
    && (s.scene.Some? <==> s.spriteUrl.Some?)
    && (s.scene.Some? ==> s.scene.value != "")
    && (s.spriteUrl.Some? ==> s.spriteUrl.value != "")
    && s.playbackRate != 0
    && (s.spriteUrl.Some? ==> (s.mediaType == Video <==> IsVideoUrl(s.spriteUrl)))
    && (s.manualOverride.Some? ==> OverrideValid(s.manualOverride.value))
  }

  /** A notification that arrives at clock reading `now`. */
  datatype Timed = Timed(now: int, notification: Notification)

  /** The state after delivering `events` in order. */
  function Run(s: State, cfg: Config, env: Env, events: seq<Timed>): State
    decreases |events|
  {
    if events == [] then s
    else Run(NotificationReceived(s, cfg, env, events[0].now, events[0].notification).state, cfg, env, events[1..])
  }

  /** A type given with a request that has a url agrees with the url's extension. */
  predicate TypeAgrees(info: SpriteInfo) {
    info.mediaType.Some? && Truthy(info.url) ==> (info.mediaType.value == Video <==> IsVideoUrl(info.url))
  }

  lemma UpdatePreservesValid(s: State, cfg: Config, sceneKey: string, isNight: bool, info: Option<SpriteInfo>)
    requires Valid(s) && sceneKey != ""
    requires info.Some? ==> TypeAgrees(info.value)
    ensures Valid(UpdateSprite(s, cfg, sceneKey, isNight, info).state)
  {
  }

  lemma ApplyScenePreservesValid(s: State, cfg: Config, file: string -> string, sceneKey: string, isNight: bool)
    requires Valid(s) && sceneKey != ""
    ensures Valid(ApplyScene(s, cfg, file, sceneKey, isNight).state)
  {
    UpdatePreservesValid(s, cfg, sceneKey, isNight, Some(LookupSprite(cfg, file, sceneKey, isNight)));
  }

  lemma ApplyOverridePreservesValid(s: State, cfg: Config, env: Env, now: int)
    requires Valid(s)
    ensures Valid(ApplyManualOverride(s, cfg, env, now).state)
  {
    if s.manualOverride.Some? {
      var o := s.manualOverride.value;
      var sceneKey := OverrideSceneKey(o);
      var isNight := if o.isNight.Some? then o.isNight.value else DayNight.ResolveNightFlag(None, s.sunTimes, now);
      if Truthy(o.spriteUrl) {
        var info := SpriteInfo(
          ResolveSpriteUrl(env.file, o.spriteUrl.value),
          None,
          EffectiveRate(o.playbackRate, cfg.videoPlaybackRate));
        UpdatePreservesValid(s, cfg, sceneKey, isNight, Some(info));
      } else {
        ApplyScenePreservesValid(s, cfg, env.file, sceneKey, isNight);
      }
    }
  }

  lemma WeatherTypePreservesValid(s: State, cfg: Config, env: Env, now: int, condition: Option<string>)
    requires Valid(s)
    ensures Valid(HandleWeatherType(s, cfg, env, now, condition).state)
  {
    ApplyOverridePreservesValid(s, cfg, env, now);
    if s.manualOverride.None? && Truthy(condition) {
      var c := Classifier.NormalizeWeather(condition);
      ApplyScenePreservesValid(s, cfg, env.file, c.scene, DayNight.ResolveNightFlag(Some(c.isNightHint), s.sunTimes, now));
    }
  }

  lemma WeatherUpdatePreservesValid(s: State, cfg: Config, env: Env, now: int, update: Option<WeatherUpdate>)
    requires Valid(s)
    ensures Valid(HandleWeatherUpdate(s, cfg, env, now, update).state)
  {
    if update.Some? && update.value.currentWeather.Some? {
      var cw := update.value.currentWeather.value;
      var s' := s.(sunTimes := ParseSunTimes(env, cw.sunrise, cw.sunset));
      WeatherTypePreservesValid(s', cfg, env, now, cw.weatherType);
    }
  }

  lemma AmbientPreservesValid(s: State, cfg: Config, env: Env, now: int, ambient: Option<AmbientWeather>)
    requires Valid(s)
    ensures Valid(HandleAmbientWeather(s, cfg, env, now, ambient).state)
  {
    if ambient.Some? {
      var p := ambient.value;
      var s' := s.(sunTimes := ParseSunTimes(env, p.sunrise, p.sunset));
      var condition := AmbientCondition(p);
      if s.manualOverride.Some? {
        ApplyOverridePreservesValid(s', cfg, env, now);
      } else if Truthy(condition) {
        var isNight := if p.isDaytime.Some? then !p.isDaytime.value else DayNight.ResolveNightFlag(None, s'.sunTimes, now);
        var scene := Classifier.NormalizeWeather(condition).scene;
        ApplyScenePreservesValid(s', cfg, env.file, scene, isNight);
        assert HandleAmbientWeather(s, cfg, env, now, ambient) == ApplyScene(s', cfg, env.file, scene, isNight);
      }
    }
  }

  lemma ManualSetPreservesValid(s: State, cfg: Config, env: Env, now: int, request: Option<ManualRequest>)
    requires Valid(s)
    ensures Valid(HandleManualSet(s, cfg, env, now, request).state)
  {
    if request.Some? && (Truthy(request.value.scene) || Truthy(request.value.spriteUrl)) {
      ApplyOverridePreservesValid(s.(manualOverride := Some(OverrideFrom(cfg, request.value))), cfg, env, now);
    }
  }

  lemma ClearPreservesValid(s: State, cfg: Config, env: Env)
    requires Valid(s)
    ensures Valid(HandleClear(s, cfg, env).state)
  {
    if Truthy(s.scene) {
      ApplyScenePreservesValid(s.(manualOverride := None), cfg, env.file, s.scene.value, s.isNight);
    }
  }

  /** Every notification keeps the invariant. */
  lemma NotificationPreservesValid(s: State, cfg: Config, env: Env, now: int, n: Notification)
    requires Valid(s)
    ensures Valid(NotificationReceived(s, cfg, env, now, n).state)
  {
    match n
    case CurrentWeatherType(condition) => WeatherTypePreservesValid(s, cfg, env, now, condition);
    case WeatherUpdated(update) => WeatherUpdatePreservesValid(s, cfg, env, now, update);
    case AmbientWeatherData(ambient) => AmbientPreservesValid(s, cfg, env, now, ambient);
    case BackgroundSet(request) => ManualSetPreservesValid(s, cfg, env, now, request);
    case BackgroundClear => ClearPreservesValid(s, cfg, env);
    case Unrelated =>
  }

  /** The state `start` seeds is valid. */
  lemma StartIsValid(cfg: Config, file: string -> string)
    ensures Valid(Start(cfg, file))
  {
    ApplyScenePreservesValid(Seed(cfg), cfg, file, "default", false);
  }

  /** Every state a run reaches from a valid state is valid. */
  lemma {:induction false} RunPreservesValid(s: State, cfg: Config, env: Env, events: seq<Timed>)
    requires Valid(s)
    ensures Valid(Run(s, cfg, env, events))
    decreases |events|
  {
    if events != [] {
      NotificationPreservesValid(s, cfg, env, events[0].now, events[0].notification);
      RunPreservesValid(
        NotificationReceived(s, cfg, env, events[0].now, events[0].notification).state, cfg, env, events[1..]);
    }
  }

  /** So the scene on show after any sequence of notifications, from start, has a
      url whose extension agrees with its media type. */
  lemma ReachableStatesAreValid(cfg: Config, env: Env, events: seq<Timed>)
    ensures Valid(Run(Start(cfg, env.file), cfg, env, events))
  {
    StartIsValid(cfg, env.file);
    RunPreservesValid(Start(cfg, env.file), cfg, env, events);
  }
}

=== FILE: text.dfy ===
/**
 * String helpers standing in for the JavaScript string methods and regular
 * expression tests the module uses: `toLowerCase`, `includes`, `startsWith`,
 * and the `\s` and `.` character classes.
 */
module Text {

  predicate IsUpperAscii(c: char) {
    'A' <= c <= 'Z'
  }

  function LowerChar(c: char): char {
    if IsUpperAscii(c) then (c as int + 32) as char else c
  }

  /** `toLowerCase()`, on ASCII letters. */
  function Lower(s: string): (r: string)
    ensures |r| == |s|
    ensures forall i | 0 <= i < |s| :: !IsUpperAscii(r[i]) && LowerChar(r[i]) == LowerChar(s[i])
  {
    seq(|s|, i requires 0 <= i < |s| => LowerChar(s[i]))
  }

  lemma LowerIsIdempotent(s: string)
    ensures Lower(Lower(s)) == Lower(s)
  {
  }

  /** `pat` occurs in `s` starting at offset `i`. */
  predicate OccursAt(s: string, pat: string, i: int) {
    0 <= i && i + |pat| <= |s| && s[i..i + |pat|] == pat
  }

  lemma OccursInTail(s: string, pat: string)
    requires |s| > 0
    ensures forall i :: OccursAt(s, pat, i) ==> i == 0 || OccursAt(s[1..], pat, i - 1)
    ensures forall i :: OccursAt(s[1..], pat, i) ==> OccursAt(s, pat, i + 1)
  {
    forall i | OccursAt(s, pat, i) && i > 0
      ensures OccursAt(s[1..], pat, i - 1)
    {
      assert s[1..][i - 1..i - 1 + |pat|] == s[i..i + |pat|];
    }
    forall i | OccursAt(s[1..], pat, i)
      ensures OccursAt(s, pat, i + 1)
    {
      assert s[1..][i..i + |pat|] == s[i + 1..i + 1 + |pat|];
    }
  }

  /** `s.includes(pat)`, scanning `s` from the left. */
  function Contains(s: string, pat: string): (r: bool)
    ensures r <==> exists i :: OccursAt(s, pat, i)
    decreases |s|
  {
    if |s| < |pat| then
      false
    else if s[..|pat|] == pat then
      assert OccursAt(s, pat, 0);
      true
    else
      OccursInTail(s, pat);
      assert !OccursAt(s, pat, 0);
      Contains(s[1..], pat)
  }

  /** `s.startsWith(prefix)`. */
  predicate StartsWith(s: string, prefix: string) {
    |prefix| <= |s| && s[..|prefix|] == prefix
  }

  /** A character the regular-expression class `\s` matches. */
  predicate IsJsWhitespace(c: char) {
    || c == '\t' || c == '\n' || c == '\U{000B}' || c == '\U{000C}' || c == '\r' || c == ' '
    || c == '\U{00A0}' || c == '\U{1680}' || ('\U{2000}' <= c <= '\U{200A}')
    || c == '\U{2028}' || c == '\U{2029}' || c == '\U{202F}' || c == '\U{205F}'
    || c == '\U{3000}' || c == '\U{FEFF}'
  }

  /** A character the regular-expression `.` refuses (a line terminator). */
  predicate IsLineTerminator(c: char) {
    c == '\n' || c == '\r' || c == '\U{2028}' || c == '\U{2029}'
  }
}
